=== FILE: README.md ===
# Idempotent payment engine — Dafny model

This project models the payment core of the QR-scan payment backend:

- **Initiation.** A client opens a payment session against a merchant identified by a scanned code. The session is deduplicated by a client-chosen idempotency key.
- **Execution.** The client executes the session with a PIN. In the model, where each execution is one atomic step, the session is settled and the payer's balance is debited at most once. The backend itself gives no such guarantee under concurrent executions (see "Concurrency" under Left out).

The backend keeps its state in a Postgres database and a Redis cache. Here that state is one immutable `World`:

- the transactions table, as a sequence of rows in table order;
- the users table, keyed by id;
- the merchants table;
- the cache, an entry map plus the set of round trips that fail at the transport level.

Each service call is a pure function from a world and a request to an answer and a new world. A failed execution returns the world it was given, which is how the model shows the rollback of its database transaction. Initiation has no enclosing transaction: a failed initiation may keep the row it inserted and the merchant cache entry it wrote (see below).

Modules follow the source layout:

| module | file | models |
|---|---|---|
| `Wrappers` | wrappers.dfy | `Option`, `Result` |
| `Errors` | errors.dfy | `AppError`, `from_sqlx`, status codes, error body (src/handlers/errors.rs) |
| `Models` | models.dfy | `TransactionStatus` and its labels, request/response records, merchant and user rows |
| `Codec` | codec.dfy | serialisation of cached records (the JSON library is abstracted) |
| `Store` | store.dfy | `fetch_one`: a matching row or `RowNotFound` |
| `Cache` | cache.dfy | the Redis client's `get` / `set` / `delete` (backend/src/cache/redis_client.rs) |
| `MerchantService` | merchant.dfy | read-through merchant lookup by code and by id (backend/src/services/merchant.rs) |
| `PaymentService` | payment.dfy | `initiate_payment`, `execute_payment`, `verify_pin`, `ensure_balance` (backend/src/services/payment.rs) |
| `PaymentProperties` | payment_properties.dfy | cross-call properties: replay, recovery, exactly-once settlement |

Parameters stand in for the parts that are not modelled:

- **Fresh UUIDs.** The database-generated session id and the random part of the `UPI…` settlement reference are `freshId` parameters.
- **PIN check.** The bcrypt PIN check is a function parameter `verify: (pin, hash) -> PinMatches | PinMismatch | HashUnreadable`.
- **Identity.** The caller's identity is a given user id.

Behaviour the model follows because the code does it, even though it may be unexpected:

- **Cache faults are errors.** Every cache read or write failure during initiation or merchant lookup is returned to the caller as `Internal` (payment.rs:27, 90; merchant.rs:14, 34). Only the eviction after settlement ignores a failure (payment.rs:161).
- **Initiation checks the cache first.** It checks the amount, then the idempotency cache, and only then resolves the merchant. A cache hit therefore skips the merchant lookup and the store entirely.
- **The idempotency cache key is not scoped by user.** The key is `payment:idempotency:<key>` for every user, but the recovery query filters by user. A second user who reuses a key is handed the first user's cached response, gets no row of their own, and cannot execute the session they were given (`CrossUserReplay`).
- **A cache hit ignores the rest of the request.** It returns the stored response even when the new request has a different amount or merchant code (`ReplayServesCachedResponse`).
- **The status is always "initiated".** An initiation response carries that text even when the recovered row is already `Success` (`RecoveredSettledSessionReportsInitiated`).
- **Initiation can fail after inserting its row.** This happens when the final cache write fails. The row stays, and a retry recovers it through the unique index (`RetryAfterLateFailure`).
- **A recovered session takes the new request's merchant.** After a unique violation, the answer carries the old row's id and amount but the merchant the new request resolved (payment.rs:76-83) (`RecoveredSessionReportsRequestedMerchant`).
- **The idempotency key may be empty.** The code does not check for an empty key, and neither does the model.

## Model

| member | source | states |
|---|---|---|
| Errors.StatusCode | src/handlers/errors.rs:52-59 | every error is answered with one of 400, 401, 404, 409, 500 |
| Errors.StatusCodeInjective | src/handlers/errors.rs:52-59 | two errors with the same status code are the same variant, so the five codes are pairwise distinct |
| Errors.BadRequestOf | src/handlers/errors.rs:24-26 | `bad_request` yields a 400 error that displays the given message unchanged |
| Errors.UnauthorizedOf | src/handlers/errors.rs:28-30 | `unauthorized` yields a 401 error that displays the given message unchanged |
| Errors.InternalOf | src/handlers/errors.rs:32-34 | `internal` yields a 500 error that displays the given message unchanged |
| Errors.FromSqlx | src/handlers/errors.rs:36-48 | a missing row is NotFound "not found" (404) and a unique violation is Conflict "already exists" (409), and only those; every other driver or database error is 500 "database error"; no driver text leaks |
| Errors.ToErrorResponse | src/handlers/errors.rs:62-66 | the body's `error` is the displayed message, and a client reading status and body recovers the original error exactly |
| Models.StatusesEnumerated | backend/src/models/payment.rs:7-13 | the status enum has exactly five distinct variants |
| Models.LabelIsLowercaseVariantName | backend/src/services/payment.rs:120 | a status is reported as its variant name lower-cased, as the `{:?}` format followed by `to_lowercase` gives |
| Models.ParseLabel | backend/src/models/payment.rs:5-13 | reading a stored lower-case label gives a status whose label is that text |
| Models.LabelRoundTrip | backend/src/models/payment.rs:5-13 | writing a status as its label and reading it back gives the same status |
| Models.LabelInjective | backend/src/models/payment.rs:5-13 | distinct statuses have distinct stored labels |
| Codec.EncodeMerchant | backend/src/models/merchant.rs:5-15 | a merchant written to the cache reads back as the same merchant |
| Codec.DecodeMerchant | backend/src/models/merchant.rs:5-15 | only a serialised merchant parses as a merchant |
| Codec.EncodeInitResponse | backend/src/models/payment.rs:36-49 | an initiation response written to the cache reads back unchanged |
| Codec.DecodeInitResponse | backend/src/models/payment.rs:36-49 | only a serialised initiation response parses as one |
| Store.FirstIndex | backend/src/services/payment.rs:103-114 | finds a row that satisfies the WHERE clause, and finds none exactly when no row does; the queries have no ORDER BY, so choosing the first row in sequence order is the model's stand-in for the database's unspecified order |
| Store.FetchOne | backend/src/services/payment.rs:103-114 | the row returned is in the table and satisfies the clause; `RowNotFound` is returned exactly when no row does; which of several matching rows is returned is the model's choice |
| Store.FetchOneUnique | backend/src/services/payment.rs:54-66 | when only one row satisfies the clause, that row is returned |
| Cache.Get | backend/src/cache/redis_client.rs:22-33 | with no transport fault, an absent key reads as `None` and a present, parsable one reads as `Some` of its parsed value; a transport fault or an unparsable value is an error; `Some(v)` is returned only for a stored value that parses as `v` |
| Cache.Set | backend/src/cache/redis_client.rs:35-41 | serialisation is attempted first and its failure leaves the server untouched; on success the key holds the new value and expiry, replacing any old one, and all other keys are unchanged |
| Cache.Delete | backend/src/cache/redis_client.rs:43-46 | the key is removed and every other key is unchanged; a transport fault is an error that changes nothing |
| Cache.GetAfterSet | backend/src/cache/redis_client.rs:22-41 | a value that is set reads back unchanged |
| Cache.GetOtherAfterSet | backend/src/cache/redis_client.rs:22-41 | writing one key does not change what any other key reads as |
| Cache.GetAfterDelete | backend/src/cache/redis_client.rs:22-46 | after a delete, the key reads as `None` |
| MerchantService.ReadThrough | backend/src/services/merchant.rs:8-37 | a hit is returned as stored with no change; a read fault is `Internal`; a miss whose store read succeeds and whose cache write has no fault returns the store's row and leaves it cached for 3600 s; a failed store read returns the classified store error; a failed cache write is `Internal` and leaves the cache as it was |
| MerchantService.GetMerchantByQr | backend/src/services/merchant.rs:8-37 | on a miss the merchant returned has exactly the scanned code; with no such row the result is NotFound "not found" and the cache is untouched; the only errors are Internal and NotFound, and neither changes the cache |
| MerchantService.GetMerchantById | backend/src/services/merchant.rs:39-68 | the same read-through behaviour keyed by `merchant:id:<id>`: on a miss the merchant returned has exactly the requested id; with no such row the result is NotFound and the cache is untouched; the only errors are Internal and NotFound, and neither changes the cache |
| MerchantService.MissPopulatesCache | backend/src/services/merchant.rs:19-36 | a successful miss leaves the merchant under `merchant:qr:<code>` with expiry 3600 |
| MerchantService.HitIgnoresStore | backend/src/services/merchant.rs:11-17 | on a hit the merchants table is not consulted: any table gives the same answer, and the cache is unchanged |
| MerchantService.SecondLookupHits | backend/src/services/merchant.rs:11-36 | a second lookup of the same code on the cache the first one left returns the same merchant and changes nothing, whatever the table holds by then |
| MerchantService.MissPopulatesCacheById | backend/src/services/merchant.rs:50-65 | a successful miss by id leaves the merchant under `merchant:id:<id>` with expiry 3600 |
| MerchantService.HitByIdIgnoresStore | backend/src/services/merchant.rs:42-48 | on a hit by id the merchants table is not consulted and the cache is unchanged |
| MerchantService.SecondLookupByIdHits | backend/src/services/merchant.rs:42-67 | a second lookup of the same id on the cache the first one left returns the same merchant and changes nothing, whatever the table holds by then |
| MerchantService.QrKeyInjective | backend/src/services/merchant.rs:9 | distinct codes use distinct cache keys |
| MerchantService.MerchantNamespacesDisjoint | backend/src/services/merchant.rs:9-40 | lookups by code and lookups by id never share a cache key |
| PaymentService.Insert | backend/src/services/payment.rs:34-47 | a new row is accepted exactly when it conflicts with no existing row on id or on (user, idempotency key); otherwise the result is a unique violation; accepting it preserves both constraints |
| PaymentService.InsertOrRecover | backend/src/services/payment.rs:34-74 | a row that conflicts with nothing is appended and returned; on a unique violation the table is unchanged and the caller's existing row for the key is returned when there is one, and NotFound when there is none |
| PaymentService.Initiate | backend/src/services/payment.rs:13-93 | a non-positive amount is refused before any access; a cached response is replayed verbatim with no change; a failed cache read is Internal. On a miss, a failed merchant lookup or insert is answered with its own error, and a failed write of the response is Internal "cache transport error" that keeps the inserted or recovered row. Otherwise at most one fresh Initiated row of the caller is added, and only if neither constraint is violated. A success that missed the cache answers with the row's id and amount and the merchant this request resolved, leaves a caller-owned row for the key and caches the "initiated" response for 600 s. A miss succeeds whenever the merchant resolves, the response can be cached and the insert either goes through or meets the caller's own row for the key. Users and merchants are never touched and the engine invariant is kept |
| PaymentService.VerifyPin | backend/src/services/payment.rs:171-193 | passes exactly when the caller exists and the pin matches the stored hash; otherwise NotFound, Unauthorized "invalid pin", or Internal "pin verify failed" |
| PaymentService.EnsureBalance | backend/src/services/payment.rs:195-216 | passes exactly when the caller's balance covers the amount; otherwise BadRequest "insufficient balance" (NotFound if the caller is absent) |
| PaymentService.SettleWhereId | backend/src/services/payment.rs:131-143 | rows with the session id become Success, with the reference set and the error cleared; every other row is unchanged |
| PaymentService.Debit | backend/src/services/payment.rs:145-156 | only the caller's balance changes, and it goes down by exactly the amount |
| PaymentService.Settle | backend/src/services/payment.rs:129-161 | the session's rows become Success with the reference, the caller is debited exactly the amount, the idempotency entry is evicted unless the delete fails, and the invariant is kept when the balance covers the amount |
| PaymentService.EvictIgnoringFailure | backend/src/services/payment.rs:160-161 | the idempotency entry is removed, or the cache is unchanged when the delete fails |
| PaymentService.Execute | backend/src/services/payment.rs:95-169 | an absent or foreign session is NotFound; a terminal session is replayed with its stored status label and reference. For an open session, a missing caller is NotFound, a wrong pin is Unauthorized "invalid pin", an unreadable hash is Internal "pin verify failed" and an uncovered amount is BadRequest "insufficient balance". Every error leaves the world unchanged. An open session with a matching pin and a covering balance is always settled with "payment successful", and a settlement happens only then; it settles exactly that session, debits exactly its amount from the caller only, evicts the idempotency entry, and answers "success" with a `UPI`-prefixed reference. The engine invariant (unique keys, positive amounts, non-negative balances) is kept |
| PaymentProperties.FreshInitiation | backend/src/services/payment.rs:32-85 | a first initiation for a key inserts exactly one Initiated row for the caller, the resolved merchant and the amount, and answers with that row's id; a failed merchant lookup inserts nothing and is reported as it is |
| PaymentProperties.InitiateTouchesOnlyItsKeys | backend/src/services/payment.rs:23-90 | initiation changes the cache only under the merchant code's key and the idempotency key, and a failed initiation leaves the idempotency entry as it was |
| PaymentProperties.CacheNamespacesDisjoint | backend/src/services/payment.rs:23 | idempotency keys, merchant-code keys and merchant-id keys never collide |
| PaymentProperties.ReplayServesCachedResponse | backend/src/services/payment.rs:23-30 | after a successful initiation, any initiation with the same key and a positive amount returns the same response and changes nothing, whoever the user and whatever the merchant code or amount |
| PaymentProperties.IdempotentInitiate | backend/tests/integration_tests.rs:186-213 | two initiations by the same user with the same key answer with the same session id, and the second changes nothing |
| PaymentProperties.RecoverExistingSession | backend/src/services/payment.rs:49-66 | on a cache miss, a caller who already owns a row for the key gets that row's session id and amount, and no row is added |
| PaymentProperties.RecoveredSettledSessionReportsInitiated | backend/src/services/payment.rs:76-85 | a recovered row that is already Success is still reported with status "initiated", which differs from its stored label |
| PaymentProperties.RecoveredSessionReportsRequestedMerchant | backend/src/services/payment.rs:49-85 | a recovered session is answered with the existing row's id and amount but the merchant the new request's code resolved to, and no row is added |
| PaymentProperties.OneRowPerKey | backend/src/services/payment.rs:34-74 | after a successful initiation that missed the cache, exactly one row exists for the caller and key, and it is the returned session |
| PaymentProperties.RetryAfterLateFailure | backend/src/services/payment.rs:87-90 | an initiation that fails after inserting its row keeps the row, and a later retry that misses the cache answers with that row's session |
| PaymentProperties.CrossUserReplay | backend/src/services/payment.rs:23-30 | a second user who reuses another user's idempotency key receives that user's session, gets no row of their own, and gets NotFound when executing it |
| PaymentProperties.ExecuteTwiceDebitsOnce | backend/src/services/payment.rs:116-124 | executing a settled session again changes nothing; it answers "success" with the first settlement's reference and "transaction already processed" |
| PaymentProperties.SettlementKeepsBalanceCovered | backend/src/services/payment.rs:126-156 | after a settlement the payer's balance is the old balance minus the amount, and it is not negative |
| PaymentProperties.StepKeepsClosed | backend/src/services/payment.rs:116-124 | once every row of a session is terminal, no initiation or execution reopens it or reports settling it |
| PaymentProperties.SettlementCloses | backend/src/services/payment.rs:129-143 | a request that settles a session leaves every row of that session terminal |
| PaymentProperties.SettlesAtMostOnce | backend/src/services/payment.rs:95-169 | over any sequence of initiations and executions by any users, a session is reported settled at most once, and never if it was already terminal |
| PaymentProperties.SettlesExactlyOnce | backend/src/services/payment.rs:95-169 | when a sequence starts by executing an open session of the caller with the right pin and a covering balance, that session is settled exactly once in the whole sequence and the caller is debited its amount |
| PaymentProperties.IdempotentUnderLaterFaults | backend/src/services/payment.rs:23-90 | a retry of a successful initiation that meets a different set of cache faults, if it succeeds, replays the first response exactly and changes nothing |

## Left out

- Money: amount and balance are `f64` in the source. Here they are integer minor units, and the `<= 0.0` and `<` comparisons are integer comparisons.
- PIN hashing: bcrypt is an external library and appears only as the `verify` parameter of `Execute`.
- Tokens: JWT issuance and checking are not modelled; the caller's user id is given.
- Concurrency: Postgres transactions, isolation levels, row locks and the Tokio mutex in the Redis client are not modelled. `Execute` is one atomic step. Concurrent initiation appears only through the unique-violation branch of the insert.
  - `PaymentProperties.SettlesAtMostOnce`, `PaymentProperties.SettlesExactlyOnce` and the balance floor in `PaymentService.Valid` hold only because of this atomicity, and the backend does not have it.
  - `execute_payment` opens its transaction at Postgres's default isolation level (backend/src/services/payment.rs:101). Its SELECT takes no row lock (payment.rs:103-114), and neither do the balance reads in `verify_pin` and `ensure_balance`.
  - The settling UPDATE filters only on the id, not on the status (payment.rs:131-143), and the debit subtracts without re-checking the balance (payment.rs:145-156).
  - Two concurrent executions of one session can therefore both pass the status check, both settle and both debit. Concurrent executions of two sessions of the same payer can drive the balance below zero, unless a database constraint outside this model refuses it.
- Database faults: connection and driver errors are not generated for any query. This covers beginning or committing the transaction and every statement inside `execute_payment`, the merchant SELECTs (backend/src/services/merchant.rs:19-29, 50-60), and the recovery SELECT after a unique violation (backend/src/services/payment.rs:54-65). Every such read succeeds unless no row matches. `Errors.FromSqlx` still classifies these errors.
- Row order: none of the SELECTs has an ORDER BY, so Postgres may return any matching row. The model always takes the first matching row in sequence order. This is a choice, and it matters only when several merchants share a `qr_code_data`, since ids and (user, key) pairs are unique.
- Other insert errors: the model's insert fails only on a unique violation. Errors such as a foreign-key violation, whose constraints live in database migrations that are not part of this model, are not generated. The non-unique branch of `InsertOrRecover` is written out but never taken.
- Fresh values: UUID generation for row ids and for the `UPI…` reference is replaced by parameters. Timestamps (`created_at`, `updated_at`) are omitted.
- Cache faults within a run: the set of failing cache round trips is part of the world, and no operation changes it. `PaymentProperties.Run` therefore keeps one fault pattern for a whole call sequence, and `SettlesAtMostOnce` is stated for that fixed pattern. `PaymentProperties.IdempotentUnderLaterFaults` covers a retry under a different fault set.
- Time: cache expiry is recorded as a number, but time does not pass and entries never expire.
- JSON: serde is abstracted by `Codec`, whose encoders never fail. `Cache.Set` still has the serialisation-failure branch for a serialiser that does fail.
- Transport error text: a Redis transport error's text is the fixed `Cache.TransportErrorMessage` instead of the driver's message.
- Unread columns: the user's phone number, UPI id and name are omitted because the engine never reads them.
- HTTP plumbing: actix handlers, routing, middleware, configuration, connection pools, application start-up and the iOS client are not modelled. The redis handle typed as a `ConnectionManager` in backend/src/handlers/mod.rs is modelled through the `RedisClient` interface the services use.

=== FILE: cache.dfy ===
/**
 * The cache client (backend/src/cache/redis_client.rs): `get`, `set` with an
 * expiry and `delete` over a key/value server holding serialised values of
 * type `V`. Every round trip may fail at the transport level; which ones do is
 * part of the state (`failing`), so that one request can see a read succeed
 * and a later write fail. Expiry is recorded but time does not pass.
 */
module Cache {

  import opened Wrappers

  /** One round trip to the server, named by its command and key. */
  datatype Op = GetOp(key: string) | SetOp(key: string) | DeleteOp(key: string)

  datatype Entry<V> = Entry(value: V, expirySecs: nat)

  datatype Cache<V> = Cache(entries: map<string, Entry<V>>, failing: set<Op>)

  const TransportErrorMessage: string := "cache transport error"

  /**
   * Reads `key` and parses the stored value as a `T`: `None` for an absent
   * key, the parsed value for a present one, and an error for a transport
   * fault or a value that does not parse.
   */
  function Get<V, T>(c: Cache<V>, key: string, parse: V -> Result<T, string>): (r: Result<Option<T>, string>)
    ensures GetOp(key) in c.failing ==> r == Err(TransportErrorMessage)
    ensures GetOp(key) !in c.failing ==> (r == Ok(None) <==> key !in c.entries)
    ensures GetOp(key) !in c.failing && key in c.entries && parse(c.entries[key].value).Err? ==> r.Err?
    ensures GetOp(key) !in c.failing && key in c.entries && parse(c.entries[key].value).Ok? ==>
              r == Ok(Some(parse(c.entries[key].value).value))
    ensures r.Ok? && r.value.Some? ==> key in c.entries && parse(c.entries[key].value) == Ok(r.value.value)
  {
    if GetOp(key) in c.failing then Err(TransportErrorMessage)
    else if key !in c.entries then Ok(None)
    else
      match parse(c.entries[key].value)
      case Ok(v) => Ok(Some(v))
      case Err(e) => Err(e)
  }

  /**
   * Serialises `value` and stores it under `key` with the given expiry,
   * replacing any previous entry. A serialisation failure is reported before
   * the server is contacted; on any failure the cache is unchanged.
   */
  function Set<V, T>(c: Cache<V>, key: string, value: T, serialize: T -> Result<V, string>, expirySecs: nat): (r: Result<Cache<V>, string>)
    ensures serialize(value).Err? ==> r == Err(serialize(value).error)
    ensures serialize(value).Ok? ==> (r.Err? <==> SetOp(key) in c.failing)
    ensures r.Ok? ==> r.value.failing == c.failing
    ensures r.Ok? ==> key in r.value.entries && r.value.entries[key] == Entry(serialize(value).value, expirySecs)
    ensures r.Ok? ==> forall k :: k != key ==> (k in r.value.entries <==> k in c.entries)
    ensures r.Ok? ==> forall k :: k != key && k in c.entries ==> r.value.entries[k] == c.entries[k]
  {
    match serialize(value)
    case Err(e) => Err(e)
    case Ok(raw) =>
      if SetOp(key) in c.failing then Err(TransportErrorMessage)
      else Ok(c.(entries := c.entries[key := Entry(raw, expirySecs)]))
  }

  /** Removes `key`; on a transport fault the cache is unchanged. */
  function Delete<V>(c: Cache<V>, key: string): (r: Result<Cache<V>, string>)
    ensures r.Err? <==> DeleteOp(key) in c.failing
    ensures r.Err? ==> r.error == TransportErrorMessage
    ensures r.Ok? ==> r.value.failing == c.failing && key !in r.value.entries
    ensures r.Ok? ==> forall k :: k != key ==> (k in r.value.entries <==> k in c.entries)
    ensures r.Ok? ==> forall k :: k != key && k in c.entries ==> r.value.entries[k] == c.entries[k]
  {
    if DeleteOp(key) in c.failing then Err(TransportErrorMessage)
    else Ok(c.(entries := c.entries - {key}))
  }

  /** A value written by `set` reads back unchanged while the key's reads succeed. */
  lemma GetAfterSet<V, T>(c: Cache<V>, key: string, value: T, serialize: T -> Result<V, string>,
                          parse: V -> Result<T, string>, expirySecs: nat)
    requires Set(c, key, value, serialize, expirySecs).Ok?
    requires parse(serialize(value).value) == Ok(value)
    requires GetOp(key) !in c.failing
    ensures Get(Set(c, key, value, serialize, expirySecs).value, key, parse) == Ok(Some(value))
  {
  }

  /** Writing one key does not change what a read of another key returns. */
  lemma GetOtherAfterSet<V, T, U>(c: Cache<V>, key: string, value: T, serialize: T -> Result<V, string>,
                                  other: string, parse: V -> Result<U, string>, expirySecs: nat)
    requires Set(c, key, value, serialize, expirySecs).Ok?
    requires other != key
    ensures Get(Set(c, key, value, serialize, expirySecs).value, other, parse) == Get(c, other, parse)
  {
  }

  /** After a successful `delete`, a successful read of the key finds nothing. */
  lemma GetAfterDelete<V, T>(c: Cache<V>, key: string, parse: V -> Result<T, string>)
    requires Delete(c, key).Ok?
    requires GetOp(key) !in c.failing
    ensures Get(Delete(c, key).value, key, parse) == Ok(None)
  {
  }
}

=== FILE: codec.dfy ===
/**
 * The serialised form of the records the services keep in the cache. The
 * JSON encoder is an external library; it is modelled by a document that
 * remembers which record it encodes, so that decoding a document as the
 * record type it was written from gives the record back, and decoding it as
 * another type fails.
 */
module Codec {

  import opened Wrappers
  import opened Models

  datatype Json =
    | MerchantJson(merchant: Merchant)
    | InitResponseJson(response: PaymentInitResponse)
    | OtherJson(raw: string)

  const ParseErrorMessage: string := "invalid cached value"

  function EncodeMerchant(m: Merchant): (r: Result<Json, string>)
    ensures r.Ok? && DecodeMerchant(r.value) == Ok(m)
  {
    Ok(MerchantJson(m))
  }

  function DecodeMerchant(j: Json): (r: Result<Merchant, string>)
    ensures r.Ok? <==> j.MerchantJson?
  {
    match j
    case MerchantJson(m) => Ok(m)
    case _ => Err(ParseErrorMessage)
  }

  function EncodeInitResponse(resp: PaymentInitResponse): (r: Result<Json, string>)
    ensures r.Ok? && DecodeInitResponse(r.value) == Ok(resp)
  {
    Ok(InitResponseJson(resp))
  }

  function DecodeInitResponse(j: Json): (r: Result<PaymentInitResponse, string>)
    ensures r.Ok? <==> j.InitResponseJson?
  {
    match j
    case InitResponseJson(resp) => Ok(resp)
    case _ => Err(ParseErrorMessage)
  }
}

=== FILE: errors.dfy ===
/**
 * The application error type of the HTTP layer: its five variants, the
 * helper constructors, the classification of database-driver errors, and the
 * mapping of each error to an HTTP status and a JSON error body
 * (src/handlers/errors.rs).
 */
module Errors {

  import opened Wrappers

  datatype AppError =
    | BadRequest(msg: string)
    | Unauthorized(msg: string)
    | NotFound(msg: string)
    | Conflict(msg: string)
    | Internal(msg: string)

  /**
   * The database driver's error, reduced to what the classification looks
   * at: a query that returned no row, an error reported by the database
   * server (which may or may not be a unique-constraint violation), and every
   * other driver error (I/O, pool time-outs, protocol and decoding errors).
   */
  datatype SqlxError =
    | RowNotFound
    | Database(uniqueViolation: bool)
    | OtherDriverError

  const NotFoundMessage: string := "not found"
  const ConflictMessage: string := "already exists"
  const DatabaseErrorMessage: string := "database error"

  /** The text an error displays as: every variant formats as its message alone. */
  function Display(e: AppError): string
  {
    e.msg
  }

  /** The HTTP status code each variant is answered with. */
  function StatusCode(e: AppError): (code: int)
    ensures code in {400, 401, 404, 409, 500}
  {
    match e
    case BadRequest(_) => 400
    case Unauthorized(_) => 401
    case NotFound(_) => 404
    case Conflict(_) => 409
    case Internal(_) => 500
  }

  /** `AppError::bad_request`: answered with 400 and displays the given text unchanged. */
  function BadRequestOf(msg: string): (e: AppError)
    ensures StatusCode(e) == 400 && Display(e) == msg
  {
    BadRequest(msg)
  }

  /** `AppError::unauthorized`: answered with 401 and displays the given text unchanged. */
  function UnauthorizedOf(msg: string): (e: AppError)
    ensures StatusCode(e) == 401 && Display(e) == msg
  {
    Unauthorized(msg)
  }

  /** `AppError::internal`: answered with 500 and displays the given text unchanged. */
  function InternalOf(msg: string): (e: AppError)
    ensures StatusCode(e) == 500 && Display(e) == msg
  {
    Internal(msg)
  }

  /**
   * `AppError::from_sqlx`: a missing row becomes 404, a unique violation
   * reported by the database becomes 409, and everything else becomes 500;
   * none of them leaks the driver's own text.
   */
  function FromSqlx(e: SqlxError): (r: AppError)
    ensures StatusCode(r) == 404 <==> e == RowNotFound
    ensures StatusCode(r) == 409 <==> e == Database(true)
    ensures StatusCode(r) == 500 <==> (e == Database(false) || e == OtherDriverError)
    ensures Display(r) in {NotFoundMessage, ConflictMessage, DatabaseErrorMessage}
    ensures Display(r) == DatabaseErrorMessage <==> StatusCode(r) == 500
    ensures e == RowNotFound ==> r == NotFound(NotFoundMessage)
    ensures e == Database(true) ==> r == Conflict(ConflictMessage)
  {
    match e
    case RowNotFound => NotFound(NotFoundMessage)
    case Database(uniqueViolation) =>
      if uniqueViolation then Conflict(ConflictMessage) else Internal(DatabaseErrorMessage)
    case OtherDriverError => Internal(DatabaseErrorMessage)
  }

  /** The JSON body `{"error": …}` of an error response. */
  datatype ErrorBody = ErrorBody(error: string)

  datatype ErrorResponse = ErrorResponse(status: int, body: ErrorBody)

  /**
   * What a client can recover from an error response: the variant from the
   * status code and the message from the body.
   */
  function ParseErrorResponse(resp: ErrorResponse): Option<AppError>
  {
    match resp.status
    case 400 => Some(BadRequest(resp.body.error))
    case 401 => Some(Unauthorized(resp.body.error))
    case 404 => Some(NotFound(resp.body.error))
    case 409 => Some(Conflict(resp.body.error))
    case 500 => Some(Internal(resp.body.error))
    case _ => None
  }

  /**
   * `error_response`: the status is the variant's code and the body carries
   * the displayed text, so a client reading the response gets the error back
   * exactly.
   */
  function ToErrorResponse(e: AppError): (resp: ErrorResponse)
    ensures resp.body.error == Display(e)
    ensures ParseErrorResponse(resp) == Some(e)
  {
    ErrorResponse(StatusCode(e), ErrorBody(Display(e)))
  }

  /** Distinct variants are answered with distinct status codes. */
  lemma StatusCodeInjective(a: AppError, b: AppError)
    requires StatusCode(a) == StatusCode(b)
    ensures a.BadRequest? == b.BadRequest?
    ensures a.Unauthorized? == b.Unauthorized?
    ensures a.NotFound? == b.NotFound?
    ensures a.Conflict? == b.Conflict?
    ensures a.Internal? == b.Internal?
  {
  }
}

=== FILE: merchant.dfy ===
/**
 * The merchant resolver (backend/src/services/merchant.rs): a read-through
 * cache in front of the merchants table, keyed by the scanned code or by the
 * merchant id. A hit is returned as stored; a miss queries the table and, on
 * success, writes the row to the cache for an hour. Cache faults and a
 * missing row are reported to the caller.
 */
module MerchantService {

  import opened Wrappers
  import opened Errors
  import opened Models
  import Codec
  import Cache
  import Store

  const QrKeyPrefix: string := "merchant:qr:"
  const IdKeyPrefix: string := "merchant:id:"
  const MerchantTtlSecs: nat := 3600

  type MerchantCache = Cache.Cache<Codec.Json>

  function QrKey(qrData: string): string
  {
    QrKeyPrefix + qrData
  }

  function IdKey(id: Uuid): string
  {
    IdKeyPrefix + id
  }

  /** The WHERE clause `qr_code_data = $1`. */
  function HasCode(qrData: string): Merchant -> bool
  {
    (m: Merchant) => m.qrCodeData == qrData
  }

  /** The WHERE clause `id = $1`. */
  function HasId(id: Uuid): Merchant -> bool
  {
    (m: Merchant) => m.id == id
  }

  /** A lookup's answer together with the cache it leaves behind. */
  datatype Lookup = Lookup(result: Result<Merchant, AppError>, cache: MerchantCache)

  /** The cache's answer for `key`, read as a merchant. */
  function Cached(cache: MerchantCache, key: string): Result<Option<Merchant>, string>
  {
    Cache.Get(cache, key, Codec.DecodeMerchant)
  }

  /**
   * The read-through pattern shared by both lookups: `fetched` is what the
   * store query returns, and it is used only on a cache miss.
   */
  function ReadThrough(cache: MerchantCache, key: string, fetched: Result<Merchant, SqlxError>): (r: Lookup)
    // a hit is returned as stored and nothing changes
    ensures Cached(cache, key).Ok? && Cached(cache, key).value.Some? ==>
              r == Lookup(Ok(Cached(cache, key).value.value), cache)
    // a failed read surfaces as Internal, carrying the client's text
    ensures Cached(cache, key).Err? ==> r == Lookup(Err(Internal(Cached(cache, key).error)), cache)
    // a miss answers with the store's row, or the classified store error
    ensures Cached(cache, key) == Ok(None) && fetched.Err? ==> r == Lookup(Err(FromSqlx(fetched.error)), cache)
    ensures Cached(cache, key) == Ok(None) && fetched.Ok? ==>
              (r.result == Ok(fetched.value) <==> Cache.SetOp(key) !in cache.failing)
    ensures Cached(cache, key) == Ok(None) && fetched.Ok? && Cache.SetOp(key) in cache.failing ==>
              r == Lookup(Err(Internal(Cache.TransportErrorMessage)), cache)
    // a successful miss writes the row under `key` for an hour
    ensures Cached(cache, key) == Ok(None) && fetched.Ok? && Cache.SetOp(key) !in cache.failing ==>
              r == Lookup(Ok(fetched.value),
                          cache.(entries := cache.entries[key := Cache.Entry(Codec.MerchantJson(fetched.value), MerchantTtlSecs)]))
    // the only change a lookup makes is to populate `key` with the row it returns
    ensures r.result.Err? ==> r.cache == cache
    ensures r.result.Ok? && r.cache != cache ==>
              r.cache == cache.(entries := cache.entries[key := Cache.Entry(Codec.MerchantJson(r.result.value), MerchantTtlSecs)])
  {
    match Cached(cache, key)
    case Err(e) => Lookup(Err(InternalOf(e)), cache)
    case Ok(Some(m)) => Lookup(Ok(m), cache)
    case Ok(None) =>
      match fetched
      case Err(e) => Lookup(Err(FromSqlx(e)), cache)
      case Ok(m) =>
        match Cache.Set(cache, key, m, Codec.EncodeMerchant, MerchantTtlSecs)
        case Err(e) => Lookup(Err(InternalOf(e)), cache)
        case Ok(c) => Lookup(Ok(m), c)
  }

  /** `get_merchant_by_qr`. */
  function GetMerchantByQr(merchants: seq<Merchant>, cache: MerchantCache, qrData: string): (r: Lookup)
    // on a miss, a merchant is returned only if it is a row of the table with that code
    ensures Cached(cache, QrKey(qrData)) == Ok(None) && r.result.Ok? ==>
              r.result.value in merchants && r.result.value.qrCodeData == qrData
    // on a miss with no such row: NotFound, and the cache is untouched
    ensures Cached(cache, QrKey(qrData)) == Ok(None) &&
            (forall i :: 0 <= i < |merchants| ==> merchants[i].qrCodeData != qrData) ==>
              r == Lookup(Err(NotFound(NotFoundMessage)), cache)
    // the only errors are cache faults (Internal) and the missing row (NotFound)
    ensures r.result.Err? ==> r.result.error.Internal? || r.result.error == NotFound(NotFoundMessage)
    ensures r.result.Err? ==> r.cache == cache
  {
    ReadThrough(cache, QrKey(qrData), Store.FetchOne(merchants, HasCode(qrData)))
  }

  /** `get_merchant_by_id`. */
  function GetMerchantById(merchants: seq<Merchant>, cache: MerchantCache, id: Uuid): (r: Lookup)
    ensures Cached(cache, IdKey(id)) == Ok(None) && r.result.Ok? ==>
              r.result.value in merchants && r.result.value.id == id
    ensures Cached(cache, IdKey(id)) == Ok(None) &&
            (forall i :: 0 <= i < |merchants| ==> merchants[i].id != id) ==>
              r == Lookup(Err(NotFound(NotFoundMessage)), cache)
    ensures r.result.Err? ==> r.result.error.Internal? || r.result.error == NotFound(NotFoundMessage)
    ensures r.result.Err? ==> r.cache == cache
  {
    ReadThrough(cache, IdKey(id), Store.FetchOne(merchants, HasId(id)))
  }

  /** A successful lookup by code, missing the cache, stores its merchant under the code's key for an hour. */
  lemma MissPopulatesCache(merchants: seq<Merchant>, cache: MerchantCache, qrData: string)
    requires Cached(cache, QrKey(qrData)) == Ok(None)
    requires GetMerchantByQr(merchants, cache, qrData).result.Ok?
    ensures var r := GetMerchantByQr(merchants, cache, qrData);
            QrKey(qrData) in r.cache.entries &&
            r.cache.entries[QrKey(qrData)] == Cache.Entry(Codec.MerchantJson(r.result.value), MerchantTtlSecs)
  {
  }

  /** On a hit the store is not consulted: any merchants table gives the same answer. */
  lemma HitIgnoresStore(merchants: seq<Merchant>, other: seq<Merchant>, cache: MerchantCache, qrData: string)
    requires Cached(cache, QrKey(qrData)).Ok? && Cached(cache, QrKey(qrData)).value.Some?
    ensures GetMerchantByQr(merchants, cache, qrData) == GetMerchantByQr(other, cache, qrData)
    ensures GetMerchantByQr(merchants, cache, qrData).cache == cache
  {
  }

  /**
   * A second lookup by the same code after a successful one, with the cache
   * as the first left it, is a hit: it returns the same merchant and changes
   * nothing, whatever the merchants table holds by then.
   */
  lemma SecondLookupHits(merchants: seq<Merchant>, later: seq<Merchant>, cache: MerchantCache, qrData: string)
    requires GetMerchantByQr(merchants, cache, qrData).result.Ok?
    ensures var first := GetMerchantByQr(merchants, cache, qrData);
            GetMerchantByQr(later, first.cache, qrData) == first
  {
  }

  /** A successful lookup by id, missing the cache, stores its merchant under the id's key for an hour. */
  lemma MissPopulatesCacheById(merchants: seq<Merchant>, cache: MerchantCache, id: Uuid)
    requires Cached(cache, IdKey(id)) == Ok(None)
    requires GetMerchantById(merchants, cache, id).result.Ok?
    ensures var r := GetMerchantById(merchants, cache, id);
            IdKey(id) in r.cache.entries &&
            r.cache.entries[IdKey(id)] == Cache.Entry(Codec.MerchantJson(r.result.value), MerchantTtlSecs)
  {
  }

  /** On a hit by id the store is not consulted, and the cache is unchanged. */
  lemma HitByIdIgnoresStore(merchants: seq<Merchant>, other: seq<Merchant>, cache: MerchantCache, id: Uuid)
    requires Cached(cache, IdKey(id)).Ok? && Cached(cache, IdKey(id)).value.Some?
    ensures GetMerchantById(merchants, cache, id) == GetMerchantById(other, cache, id)
    ensures GetMerchantById(merchants, cache, id).cache == cache
  {
  }

  /** A second lookup by the same id after a successful one is a hit that returns the same merchant and changes nothing. */
  lemma SecondLookupByIdHits(merchants: seq<Merchant>, later: seq<Merchant>, cache: MerchantCache, id: Uuid)
    requires GetMerchantById(merchants, cache, id).result.Ok?
    ensures var first := GetMerchantById(merchants, cache, id);
            GetMerchantById(later, first.cache, id) == first
  {
  }

  /** Distinct codes use distinct cache keys. */
  lemma {:induction false} QrKeyInjective(a: string, b: string)
    requires QrKey(a) == QrKey(b)
    ensures a == b
  {
    assert a == QrKey(a)[|QrKeyPrefix|..];
    assert b == QrKey(b)[|QrKeyPrefix|..];
  }

  /** Lookups by code and by id never share a cache entry. */
  lemma {:induction false} MerchantNamespacesDisjoint(qrData: string, id: Uuid)
    ensures QrKey(qrData) != IdKey(id)
  {
    assert QrKey(qrData)[9] == 'q';
    assert IdKey(id)[9] == 'i';
  }
}

=== FILE: models.dfy ===
/**
 * Records of the payment core: the transaction status enum and its stored
 * labels, the transaction row, the request and response bodies of the two
 * payment endpoints (backend/src/models/payment.rs), the merchant row
 * (backend/src/models/merchant.rs) and the part of the user row the engine
 * reads (src/models/user.rs).
 *
 * Money is an integer count of minor units; creation and update timestamps
 * are omitted.
 */
module Models {

  import opened Wrappers

  /** Identifiers in their canonical text form. */
  type Uuid = string

  datatype TransactionStatus = Initiated | Pending | Success | Failed | Refunded

  const AllStatuses: seq<TransactionStatus> := [Initiated, Pending, Success, Failed, Refunded]

  /** The variant's name as `{:?}` prints it. */
  function VariantName(s: TransactionStatus): string
  {
    match s
    case Initiated => "Initiated"
    case Pending => "Pending"
    case Success => "Success"
    case Failed => "Failed"
    case Refunded => "Refunded"
  }

  /** The label stored in the database enum and reported to clients. */
  function Label(s: TransactionStatus): string
  {
    match s
    case Initiated => "initiated"
    case Pending => "pending"
    case Success => "success"
    case Failed => "failed"
    case Refunded => "refunded"
  }

  /** Reads a stored label back; the inverse of `Label`. */
  function ParseLabel(text: string): (r: Option<TransactionStatus>)
    ensures r.Some? ==> Label(r.value) == text
  {
    if text == "initiated" then Some(Initiated)
    else if text == "pending" then Some(Pending)
    else if text == "success" then Some(Success)
    else if text == "failed" then Some(Failed)
    else if text == "refunded" then Some(Refunded)
    else None
  }

  /** Execution may proceed only from these two states; the others are terminal for it. */
  predicate IsExecutable(s: TransactionStatus)
  {
    s == Initiated || s == Pending
  }

  function LowerAscii(c: char): char
  {
    if 'A' <= c <= 'Z' then (c as int - 'A' as int + 'a' as int) as char else c
  }

  /** `str::to_lowercase` restricted to ASCII text, which is all the variant names contain. */
  function ToLowerAscii(s: string): (r: string)
    ensures |r| == |s|
    ensures forall i :: 0 <= i < |s| ==> r[i] == LowerAscii(s[i])
  {
    if |s| == 0 then [] else [LowerAscii(s[0])] + ToLowerAscii(s[1..])
  }

  datatype Transaction = Transaction(
    id: Uuid,
    userId: Uuid,
    merchantId: Uuid,
    amount: int,
    status: TransactionStatus,
    idempotencyKey: string,
    upiTxnId: Option<string>,
    errorMessage: Option<string>)

  datatype PaymentInitRequest = PaymentInitRequest(qrData: string, amount: int, idempotencyKey: string)

  datatype MerchantInfo = MerchantInfo(name: string, upiId: string, category: Option<string>)

  datatype PaymentInitResponse = PaymentInitResponse(
    sessionId: Uuid,
    merchant: MerchantInfo,
    amount: int,
    status: string)

  datatype PaymentExecuteRequest = PaymentExecuteRequest(sessionId: Uuid, pin: string)

  datatype PaymentExecuteResponse = PaymentExecuteResponse(
    transactionId: Uuid,
    status: string,
    upiTxnId: Option<string>,
    message: string)

  datatype Merchant = Merchant(
    id: Uuid,
    name: string,
    upiId: string,
    category: Option<string>,
    address: Option<string>,
    phone: Option<string>,
    qrCodeData: string)

  /** The merchant summary placed in an initiation response. */
  function InfoOf(m: Merchant): MerchantInfo
  {
    MerchantInfo(m.name, m.upiId, m.category)
  }

  /** The columns of a user row the payment engine reads or writes. */
  datatype User = User(id: Uuid, balance: int, pinHash: string)

  /** The status enum has exactly five variants, listed once each. */
  lemma StatusesEnumerated(s: TransactionStatus)
    ensures s in AllStatuses
    ensures |AllStatuses| == 5
    ensures forall i, j :: 0 <= i < j < |AllStatuses| ==> AllStatuses[i] != AllStatuses[j]
  {
  }

  /** The stored label of each status is its variant name in lower case. */
  lemma LabelIsLowercaseVariantName(s: TransactionStatus)
    ensures Label(s) == ToLowerAscii(VariantName(s))
  {
  }

  /** Reading a stored label back gives the status it was written from. */
  lemma LabelRoundTrip(s: TransactionStatus)
    ensures ParseLabel(Label(s)) == Some(s)
  {
  }

  /** Distinct statuses are stored under distinct labels. */
  lemma LabelInjective(a: TransactionStatus, b: TransactionStatus)
    requires Label(a) == Label(b)
    ensures a == b
  {
  }
}

=== FILE: payment.dfy ===
/**
 * The idempotent payment engine (backend/src/services/payment.rs) as a state
 * machine over the world it touches: the transactions table, the users
 * table, the merchants table and the cache.
 *
 * `Initiate` opens a payment session for a scanned merchant code, deduplicated
 * by the client's idempotency key twice over: a fast path through the cache,
 * and the table's unique index on (user, idempotency key) as the authority.
 * `Execute` settles a session in one atomic step: it loads the caller's
 * session, replays a terminal one, checks the pin and the balance, marks the
 * session successful and debits the caller, then evicts the idempotency
 * cache entry on a best-effort basis.
 */
module PaymentService {

  import opened Wrappers
  import opened Errors
  import opened Models
  import Codec
  import Cache
  import Store
  import MerchantService

  const IdempotencyKeyPrefix: string := "payment:idempotency:"
  const IdempotencyTtlSecs: nat := 600
  const UpiPrefix: string := "UPI"

  const AmountMessage: string := "amount must be greater than 0"
  const InvalidPinMessage: string := "invalid pin"
  const PinVerifyFailedMessage: string := "pin verify failed"
  const InsufficientBalanceMessage: string := "insufficient balance"
  const AlreadyProcessedMessage: string := "transaction already processed"
  const PaymentSuccessfulMessage: string := "payment successful"

  /** The status text every initiation response carries. */
  const InitiatedText: string := "initiated"
  /** The status text of a settling execution. */
  const SuccessText: string := "success"

  /** The cache key of an initiation response: the client's key alone, not scoped by user. */
  function IdempotencyCacheKey(idempotencyKey: string): string
  {
    IdempotencyKeyPrefix + idempotencyKey
  }

  datatype World = World(
    transactions: seq<Transaction>,
    users: map<Uuid, User>,
    merchants: seq<Merchant>,
    cache: Cache.Cache<Codec.Json>)

  /** A step's answer together with the world it leaves behind. */
  datatype Outcome<T> = Outcome(result: Result<T, AppError>, world: World)

  /**
   * The answer of the password-hashing library when checking a pin against a
   * stored hash; the library itself is a parameter of `Execute`.
   */
  datatype PinVerdict = PinMatches | PinMismatch | HashUnreadable

  type PinVerifier = (string, string) -> PinVerdict

  // ---------------------------------------------------------------------------
  // Table constraints

  /** Two rows that the table's primary key or its (user, idempotency key) index would not both admit. */
  predicate Conflicts(a: Transaction, b: Transaction)
  {
    a.id == b.id || (a.userId == b.userId && a.idempotencyKey == b.idempotencyKey)
  }

  ghost predicate UniqueKeys(rows: seq<Transaction>)
  {
    forall i, j :: 0 <= i < j < |rows| ==> !Conflicts(rows[i], rows[j])
  }

  /**
   * The invariant the engine keeps: both uniqueness constraints hold, every
   * session has a positive amount, and no balance is negative.
   */
  ghost predicate Valid(w: World)
  {
    && UniqueKeys(w.transactions)
    && (forall i :: 0 <= i < |w.transactions| ==> w.transactions[i].amount > 0)
    && (forall u :: u in w.users ==> w.users[u].balance >= 0)
  }

  /** The WHERE clause `id = $1 AND user_id = $2`. */
  function OwnedSession(id: Uuid, userId: Uuid): Transaction -> bool
  {
    (t: Transaction) => t.id == id && t.userId == userId
  }

  /** The WHERE clause `idempotency_key = $1 AND user_id = $2`. */
  function KeyedSession(idempotencyKey: string, userId: Uuid): Transaction -> bool
  {
    (t: Transaction) => t.idempotencyKey == idempotencyKey && t.userId == userId
  }

  // ---------------------------------------------------------------------------
  // Initiation

  /** The row an initiation inserts: status Initiated, no settlement reference, no error. */
  function NewSession(id: Uuid, userId: Uuid, merchantId: Uuid, req: PaymentInitRequest): Transaction
  {
    Transaction(id, userId, merchantId, req.amount, Initiated, req.idempotencyKey, None, None)
  }

  /** The INSERT: rejected with a unique violation when it conflicts with an existing row, appended otherwise. */
  function Insert(rows: seq<Transaction>, row: Transaction): (r: Result<seq<Transaction>, SqlxError>)
    ensures r.Ok? <==> forall i :: 0 <= i < |rows| ==> !Conflicts(rows[i], row)
    ensures r.Ok? ==> r.value == rows + [row]
    ensures r.Err? ==> r.error == Database(true)
    ensures UniqueKeys(rows) && r.Ok? ==> UniqueKeys(r.value)
  {
    if exists i :: 0 <= i < |rows| && Conflicts(rows[i], row) then Err(Database(true))
    else Ok(rows + [row])
  }

  /**
   * The insert with its unique-violation fallback: a rejected insert fetches
   * the caller's existing row for the same idempotency key instead. Returns
   * the table afterwards and the row the response is built from.
   */
  function InsertOrRecover(rows: seq<Transaction>, row: Transaction): (r: Result<(seq<Transaction>, Transaction), AppError>)
    ensures r.Ok? ==> r.value.0 == rows || r.value.0 == rows + [row]
    ensures r.Ok? && r.value.0 == rows + [row] ==> r.value.1 == row
    ensures r.Ok? && r.value.0 == rows ==>
              r.value.1 in rows && r.value.1.userId == row.userId && r.value.1.idempotencyKey == row.idempotencyKey
    ensures r.Err? ==> r.error == NotFound(NotFoundMessage)
    // no conflict: the row is appended and returned
    ensures (forall i :: 0 <= i < |rows| ==> !Conflicts(rows[i], row)) ==> r == Ok((rows + [row], row))
    // a conflict with a row of the caller for the same key: that row is recovered and nothing is added
    ensures (exists i :: 0 <= i < |rows| && Conflicts(rows[i], row)) &&
            (exists i :: 0 <= i < |rows| && KeyedSession(row.idempotencyKey, row.userId)(rows[i])) ==>
              r.Ok? && r.value.0 == rows
    // a conflict on the id alone, with no row of the caller for the key: NotFound
    ensures (exists i :: 0 <= i < |rows| && Conflicts(rows[i], row)) &&
            (forall i :: 0 <= i < |rows| ==> !KeyedSession(row.idempotencyKey, row.userId)(rows[i])) ==>
              r == Err(NotFound(NotFoundMessage))
  {
    match Insert(rows, row)
    case Ok(rows') => Ok((rows', row))
    case Err(e) =>
      if e.Database? && e.uniqueViolation then
        match Store.FetchOne(rows, KeyedSession(row.idempotencyKey, row.userId))
        case Ok(existing) => Ok((rows, existing))
        case Err(e') => Err(FromSqlx(e'))
      else Err(FromSqlx(e))
  }

  /** The cache's answer for an idempotency key, read as an initiation response. */
  function CachedResponse(c: Cache.Cache<Codec.Json>, idempotencyKey: string): Result<Option<PaymentInitResponse>, string>
  {
    Cache.Get(c, IdempotencyCacheKey(idempotencyKey), Codec.DecodeInitResponse)
  }

  /** `initiate_payment`; `freshId` is the id the database would generate for a new row. */
  function Initiate(w: World, userId: Uuid, req: PaymentInitRequest, freshId: Uuid): (o: Outcome<PaymentInitResponse>)
    // a non-positive amount is refused before the cache or the store is touched
    ensures req.amount <= 0 ==> o == Outcome(Err(BadRequest(AmountMessage)), w)
    // a cached response is replayed verbatim, whatever the rest of the request says
    ensures req.amount > 0 && CachedResponse(w.cache, req.idempotencyKey).Ok? &&
            CachedResponse(w.cache, req.idempotencyKey).value.Some? ==>
              o == Outcome(Ok(CachedResponse(w.cache, req.idempotencyKey).value.value), w)
    // a failed cache read is an Internal error
    ensures req.amount > 0 && CachedResponse(w.cache, req.idempotencyKey).Err? ==> o.result.Err? && o.result.error.Internal? && o.world == w
    // users and merchants are never touched; at most one row is added, a fresh Initiated session of the caller
    ensures o.world.users == w.users && o.world.merchants == w.merchants
    ensures o.world.transactions == w.transactions ||
            (exists merchantId :: o.world.transactions == w.transactions + [NewSession(freshId, userId, merchantId, req)])
    // a row is added only when it conflicts with none under either uniqueness constraint
    ensures o.world.transactions != w.transactions ==>
              forall i :: 0 <= i < |w.transactions| ==>
                w.transactions[i].id != freshId &&
                !(w.transactions[i].userId == userId && w.transactions[i].idempotencyKey == req.idempotencyKey)
    // after a success that missed the cache, the caller owns a row for the key, and the response is cached under it
    ensures req.amount > 0 && CachedResponse(w.cache, req.idempotencyKey) == Ok(None) && o.result.Ok? ==>
              && (exists t :: t in o.world.transactions && t.id == o.result.value.sessionId &&
                             t.userId == userId && t.idempotencyKey == req.idempotencyKey && t.amount == o.result.value.amount)
              && o.result.value.status == InitiatedText
              && IdempotencyCacheKey(req.idempotencyKey) in o.world.cache.entries
              && o.world.cache.entries[IdempotencyCacheKey(req.idempotencyKey)] ==
                   Cache.Entry(Codec.InitResponseJson(o.result.value), IdempotencyTtlSecs)
    // a miss succeeds when the merchant resolves, the response can be cached, and the insert either
    // goes through or meets the caller's own row for the key
    ensures req.amount > 0 && CachedResponse(w.cache, req.idempotencyKey) == Ok(None) &&
            MerchantService.GetMerchantByQr(w.merchants, w.cache, req.qrData).result.Ok? &&
            Cache.SetOp(IdempotencyCacheKey(req.idempotencyKey)) !in w.cache.failing &&
            ((forall i :: 0 <= i < |w.transactions| ==> w.transactions[i].id != freshId) ||
             (exists i :: 0 <= i < |w.transactions| && KeyedSession(req.idempotencyKey, userId)(w.transactions[i]))) ==>
              o.result.Ok?
    // on a miss, a failed merchant lookup is answered with its own error and changes nothing
    ensures req.amount > 0 && CachedResponse(w.cache, req.idempotencyKey) == Ok(None) ==>
              var lookup := MerchantService.GetMerchantByQr(w.merchants, w.cache, req.qrData);
              lookup.result.Err? ==> o == Outcome(Err(lookup.result.error), w)
    // on a miss with a resolved merchant: a failed insert is answered with its own error; a failed write of the
    // response is Internal and keeps the inserted or recovered table; a success answers with the id and amount
    // of the row and the merchant this request resolved
    ensures req.amount > 0 && CachedResponse(w.cache, req.idempotencyKey) == Ok(None) ==>
              var lookup := MerchantService.GetMerchantByQr(w.merchants, w.cache, req.qrData);
              lookup.result.Ok? ==>
                var ins := InsertOrRecover(w.transactions, NewSession(freshId, userId, lookup.result.value.id, req));
                && (ins.Err? ==> o == Outcome(Err(ins.error), w.(cache := lookup.cache)))
                && (ins.Ok? && Cache.SetOp(IdempotencyCacheKey(req.idempotencyKey)) in w.cache.failing ==>
                      o.result == Err(Internal(Cache.TransportErrorMessage)) && o.world.transactions == ins.value.0)
                && (o.result.Ok? ==>
                      ins.Ok? && o.world.transactions == ins.value.0 &&
                      o.result.value == PaymentInitResponse(ins.value.1.id, InfoOf(lookup.result.value), ins.value.1.amount, InitiatedText))
    // the cache's fault pattern is the environment's, never the engine's
    ensures o.world.cache.failing == w.cache.failing
    // the engine's invariant is kept
    ensures Valid(w) ==> Valid(o.world)
  {
    if req.amount <= 0 then Outcome(Err(BadRequestOf(AmountMessage)), w)
    else
      var key := IdempotencyCacheKey(req.idempotencyKey);
      match CachedResponse(w.cache, req.idempotencyKey)
      case Err(e) => Outcome(Err(InternalOf(e)), w)
      case Ok(Some(existing)) => Outcome(Ok(existing), w)
      case Ok(None) =>
        var lookup := MerchantService.GetMerchantByQr(w.merchants, w.cache, req.qrData);
        var w1 := w.(cache := lookup.cache);
        match lookup.result
        case Err(e) => Outcome(Err(e), w1)
        case Ok(merchant) =>
          match InsertOrRecover(w1.transactions, NewSession(freshId, userId, merchant.id, req))
          case Err(e) => Outcome(Err(e), w1)
          case Ok((rows, session)) =>
            var w2 := w1.(transactions := rows);
            var response := PaymentInitResponse(session.id, InfoOf(merchant), session.amount, InitiatedText);
            match Cache.Set(w2.cache, key, response, Codec.EncodeInitResponse, IdempotencyTtlSecs)
            case Err(e) => Outcome(Err(InternalOf(e)), w2)
            case Ok(c) => Outcome(Ok(response), w2.(cache := c))
  }

  // ---------------------------------------------------------------------------
  // Execution

  /** `verify_pin`: loads the caller's user row and checks the pin against its hash. */
  function VerifyPin(users: map<Uuid, User>, userId: Uuid, pin: string, verify: PinVerifier): (r: Result<(), AppError>)
    ensures r.Ok? <==> userId in users && verify(pin, users[userId].pinHash) == PinMatches
    ensures userId !in users ==> r == Err(NotFound(NotFoundMessage))
    ensures userId in users && verify(pin, users[userId].pinHash) == PinMismatch ==> r == Err(Unauthorized(InvalidPinMessage))
    ensures userId in users && verify(pin, users[userId].pinHash) == HashUnreadable ==> r == Err(Internal(PinVerifyFailedMessage))
  {
    if userId !in users then Err(FromSqlx(RowNotFound))
    else
      match verify(pin, users[userId].pinHash)
      case HashUnreadable => Err(InternalOf(PinVerifyFailedMessage))
      case PinMismatch => Err(UnauthorizedOf(InvalidPinMessage))
      case PinMatches => Ok(())
  }

  /** `ensure_balance`: the caller's balance must cover the amount. */
  function EnsureBalance(users: map<Uuid, User>, userId: Uuid, amount: int): (r: Result<(), AppError>)
    ensures r.Ok? <==> userId in users && users[userId].balance >= amount
    ensures userId !in users ==> r == Err(NotFound(NotFoundMessage))
    ensures userId in users && users[userId].balance < amount ==> r == Err(BadRequest(InsufficientBalanceMessage))
  {
    if userId !in users then Err(FromSqlx(RowNotFound))
    else if users[userId].balance < amount then Err(BadRequestOf(InsufficientBalanceMessage))
    else Ok(())
  }

  /** A row after settlement: successful, carrying the reference, with its error cleared. */
  function Settled(t: Transaction, upiTxnId: string): Transaction
  {
    t.(status := Success, upiTxnId := Some(upiTxnId), errorMessage := None)
  }

  /** The UPDATE of the transactions table by id. */
  function SettleWhereId(rows: seq<Transaction>, id: Uuid, upiTxnId: string): (r: seq<Transaction>)
    ensures |r| == |rows|
    ensures forall i :: 0 <= i < |rows| && rows[i].id == id ==> r[i] == Settled(rows[i], upiTxnId)
    ensures forall i :: 0 <= i < |rows| && rows[i].id != id ==> r[i] == rows[i]
  {
    seq(|rows|, i requires 0 <= i < |rows| => if rows[i].id == id then Settled(rows[i], upiTxnId) else rows[i])
  }

  /** The UPDATE of the users table: the caller's balance goes down by the amount; nobody else's changes. */
  function Debit(users: map<Uuid, User>, userId: Uuid, amount: int): (r: map<Uuid, User>)
    ensures r.Keys == users.Keys
    ensures forall u :: u in users && u != userId ==> r[u] == users[u]
    ensures userId in users ==> r[userId] == users[userId].(balance := users[userId].balance - amount)
  {
    if userId in users then users[userId := users[userId].(balance := users[userId].balance - amount)] else users
  }

  /** The post-commit eviction, whose failure is ignored. */
  function EvictIgnoringFailure(c: Cache.Cache<Codec.Json>, key: string): (r: Cache.Cache<Codec.Json>)
    ensures Cache.DeleteOp(key) in c.failing ==> r == c
    ensures Cache.DeleteOp(key) !in c.failing ==> r == c.(entries := c.entries - {key})
  {
    match Cache.Delete(c, key)
    case Ok(c') => c'
    case Err(_) => c
  }

  /** The caller's session with the requested id, as the first query of the transaction finds it. */
  function LoadSession(w: World, userId: Uuid, sessionId: Uuid): Result<Transaction, SqlxError>
  {
    Store.FetchOne(w.transactions, OwnedSession(sessionId, userId))
  }

  /** The world after a settlement of session `t` by its owner. */
  ghost predicate SettledWorld(w: World, w': World, userId: Uuid, t: Transaction, upiTxnId: string)
  {
    && |w'.transactions| == |w.transactions|
    && (forall i :: 0 <= i < |w.transactions| && w.transactions[i].id == t.id ==>
          w'.transactions[i] == Settled(w.transactions[i], upiTxnId))
    && (forall i :: 0 <= i < |w.transactions| && w.transactions[i].id != t.id ==>
          w'.transactions[i] == w.transactions[i])
    && userId in w.users
    && w'.users == w.users[userId := w.users[userId].(balance := w.users[userId].balance - t.amount)]
    && w'.merchants == w.merchants
    && w'.cache == EvictIgnoringFailure(w.cache, IdempotencyCacheKey(t.idempotencyKey))
  }

  /**
   * The committed work of a settlement: the two UPDATEs, then the eviction
   * of the session's idempotency entry.
   */
  function Settle(w: World, userId: Uuid, t: Transaction, upiTxnId: string): (w': World)
    ensures userId in w.users ==> SettledWorld(w, w', userId, t, upiTxnId)
    ensures Valid(w) && userId in w.users && w.users[userId].balance >= t.amount ==> Valid(w')
  {
    World(SettleWhereId(w.transactions, t.id, upiTxnId),
          Debit(w.users, userId, t.amount),
          w.merchants,
          EvictIgnoringFailure(w.cache, IdempotencyCacheKey(t.idempotencyKey)))
  }

  /** The caller's session is found and may still be executed. */
  predicate OpenSession(w: World, userId: Uuid, sessionId: Uuid)
  {
    LoadSession(w, userId, sessionId).Ok? && IsExecutable(LoadSession(w, userId, sessionId).value.status)
  }

  /** The caller's session is open, the caller exists, and the PIN check gives `verdict`. */
  predicate PinChecked(w: World, userId: Uuid, req: PaymentExecuteRequest, verify: PinVerifier, verdict: PinVerdict)
  {
    && OpenSession(w, userId, req.sessionId)
    && userId in w.users
    && verify(req.pin, w.users[userId].pinHash) == verdict
  }

  /** Everything `execute_payment` checks before it settles: an open session, the right PIN, a covering balance. */
  predicate Settleable(w: World, userId: Uuid, req: PaymentExecuteRequest, verify: PinVerifier)
  {
    && PinChecked(w, userId, req, verify, PinMatches)
    && w.users[userId].balance >= LoadSession(w, userId, req.sessionId).value.amount
  }

  /**
   * `execute_payment`; `freshId` stands for the random UUID from which the
   * settlement reference is made.
   */
  function Execute(w: World, userId: Uuid, req: PaymentExecuteRequest, freshId: Uuid, verify: PinVerifier): (o: Outcome<PaymentExecuteResponse>)
    // a session that is absent or someone else's is NotFound
    ensures LoadSession(w, userId, req.sessionId).Err? ==> o == Outcome(Err(NotFound(NotFoundMessage)), w)
    // a terminal session is replayed: its stored status and reference, and nothing changes
    ensures LoadSession(w, userId, req.sessionId).Ok? && !IsExecutable(LoadSession(w, userId, req.sessionId).value.status) ==>
              var t := LoadSession(w, userId, req.sessionId).value;
              o == Outcome(Ok(PaymentExecuteResponse(t.id, Label(t.status), t.upiTxnId, AlreadyProcessedMessage)), w)
    // an open session is refused when the caller is gone, the pin is wrong or unreadable, or the amount is not covered
    ensures OpenSession(w, userId, req.sessionId) && userId !in w.users ==> o == Outcome(Err(NotFound(NotFoundMessage)), w)
    ensures PinChecked(w, userId, req, verify, PinMismatch) ==> o == Outcome(Err(Unauthorized(InvalidPinMessage)), w)
    ensures PinChecked(w, userId, req, verify, HashUnreadable) ==> o == Outcome(Err(Internal(PinVerifyFailedMessage)), w)
    ensures PinChecked(w, userId, req, verify, PinMatches) && !Settleable(w, userId, req, verify) ==>
              o == Outcome(Err(BadRequest(InsufficientBalanceMessage)), w)
    // a settleable session is settled
    ensures Settleable(w, userId, req, verify) ==> o.result.Ok? && o.result.value.message == PaymentSuccessfulMessage
    // failure paths change nothing
    ensures o.result.Err? ==> o.world == w
    // a success required everything checked, settles exactly the loaded session and debits exactly its amount from its owner
    ensures o.result.Ok? && o.result.value.message == PaymentSuccessfulMessage ==>
              var t := LoadSession(w, userId, req.sessionId).value;
              && Settleable(w, userId, req, verify)
              && SettledWorld(w, o.world, userId, t, UpiPrefix + freshId)
              && o.result.value == PaymentExecuteResponse(t.id, SuccessText, Some(UpiPrefix + freshId), PaymentSuccessfulMessage)
    // every other answer is a replay that changes nothing
    ensures o.result.Ok? && o.result.value.message != PaymentSuccessfulMessage ==>
              o.world == w && o.result.value.message == AlreadyProcessedMessage
    ensures Valid(w) ==> Valid(o.world)
  {
    match LoadSession(w, userId, req.sessionId)
    case Err(e) => Outcome(Err(FromSqlx(e)), w)
    case Ok(t) =>
      if !IsExecutable(t.status) then
        Outcome(Ok(PaymentExecuteResponse(t.id, Label(t.status), t.upiTxnId, AlreadyProcessedMessage)), w)
      else
        match VerifyPin(w.users, userId, req.pin, verify)
        case Err(e) => Outcome(Err(e), w)
        case Ok(_) =>
          match EnsureBalance(w.users, userId, t.amount)
          case Err(e) => Outcome(Err(e), w)
          case Ok(_) =>
            var upiTxnId := UpiPrefix + freshId;
            Outcome(Ok(PaymentExecuteResponse(t.id, SuccessText, Some(upiTxnId), PaymentSuccessfulMessage)),
                    Settle(w, userId, t, upiTxnId))
  }
}

=== FILE: payment_properties.dfy ===
/**
 * Properties of the payment engine that relate several calls: replay of a
 * cached initiation, recovery of an existing session through the unique
 * index, exactly-once settlement of a session over any sequence of requests,
 * and the places where the engine's behaviour departs from what a reader of
 * its interface might expect.
 */
module PaymentProperties {

  import opened Wrappers
  import opened Errors
  import opened Models
  import Codec
  import Cache
  import MerchantService
  import opened PaymentService

  // ---------------------------------------------------------------------------
  // Initiation

  /** Under both uniqueness constraints, two rows that conflict are the same row. */
  lemma ConflictingRowsCoincide(rows: seq<Transaction>, i: nat, j: nat)
    requires UniqueKeys(rows)
    requires i < |rows| && j < |rows|
    requires Conflicts(rows[i], rows[j])
    ensures i == j
  {
  }

  /**
   * Once an initiation has succeeded, any later initiation with the same
   * idempotency key and a positive amount, by ANY user and for ANY merchant
   * code and amount, gets the first response back verbatim and changes
   * nothing: the cache key is not scoped by user, and a hit never looks at the
   * rest of the request.
   */
  lemma ReplayServesCachedResponse(
    w: World, userId: Uuid, req: PaymentInitRequest, freshId: Uuid,
    otherUser: Uuid, otherReq: PaymentInitRequest, otherFreshId: Uuid)
    requires Initiate(w, userId, req, freshId).result.Ok?
    requires otherReq.idempotencyKey == req.idempotencyKey && otherReq.amount > 0
    ensures var first := Initiate(w, userId, req, freshId);
            Initiate(first.world, otherUser, otherReq, otherFreshId) == Outcome(first.result, first.world)
  {
  }

  /**
   * A first initiation for a key (cache miss, no conflicting row) resolves the
   * merchant, inserts exactly one Initiated row for the caller, that merchant
   * and the requested amount, and answers with that row's id as the session.
   * A failed merchant lookup inserts nothing and is reported as it is.
   */
  lemma FreshInitiation(w: World, userId: Uuid, req: PaymentInitRequest, freshId: Uuid)
    requires req.amount > 0
    requires CachedResponse(w.cache, req.idempotencyKey) == Ok(None)
    requires forall i :: 0 <= i < |w.transactions| ==>
               w.transactions[i].id != freshId && !KeyedSession(req.idempotencyKey, userId)(w.transactions[i])
    ensures var o := Initiate(w, userId, req, freshId);
            var lookup := MerchantService.GetMerchantByQr(w.merchants, w.cache, req.qrData);
            && (lookup.result.Err? ==> o.result == Err(lookup.result.error) && o.world.transactions == w.transactions)
            && (lookup.result.Ok? ==>
                  var m := lookup.result.value;
                  && o.world.transactions == w.transactions + [NewSession(freshId, userId, m.id, req)]
                  && (o.result.Ok? ==> o.result.value == PaymentInitResponse(freshId, InfoOf(m), req.amount, InitiatedText)))
  {
  }

  /**
   * An initiation changes the cache at no key other than the merchant code's
   * and the idempotency key's, and a failed one leaves the idempotency entry
   * as it was.
   */
  lemma InitiateTouchesOnlyItsKeys(w: World, userId: Uuid, req: PaymentInitRequest, freshId: Uuid, k: string)
    requires k != MerchantService.QrKey(req.qrData)
    requires k != IdempotencyCacheKey(req.idempotencyKey) || Initiate(w, userId, req, freshId).result.Err?
    ensures var c := Initiate(w, userId, req, freshId).world.cache;
            (k in c.entries <==> k in w.cache.entries) &&
            (k in c.entries ==> c.entries[k] == w.cache.entries[k])
  {
  }

  /** The three cache namespaces never share a key. */
  lemma {:induction false} CacheNamespacesDisjoint(idempotencyKey: string, qrData: string, merchantId: Uuid)
    ensures IdempotencyCacheKey(idempotencyKey) != MerchantService.QrKey(qrData)
    ensures IdempotencyCacheKey(idempotencyKey) != MerchantService.IdKey(merchantId)
    ensures MerchantService.QrKey(qrData) != MerchantService.IdKey(merchantId)
  {
    assert IdempotencyCacheKey(idempotencyKey)[0] == 'p';
    assert MerchantService.QrKey(qrData)[0] == 'm';
    assert MerchantService.IdKey(merchantId)[0] == 'm';
    MerchantService.MerchantNamespacesDisjoint(qrData, merchantId);
  }

  /**
   * A retry that meets a different fault pattern (a transient cache fault
   * appearing or clearing) still never answers with another session: if it
   * succeeds, it replays the first response exactly.
   */
  lemma IdempotentUnderLaterFaults(w: World, userId: Uuid, req: PaymentInitRequest, freshId: Uuid,
                                   laterFailing: set<Cache.Op>, retryFreshId: Uuid)
    requires Initiate(w, userId, req, freshId).result.Ok?
    ensures var first := Initiate(w, userId, req, freshId);
            var retryWorld := first.world.(cache := first.world.cache.(failing := laterFailing));
            var second := Initiate(retryWorld, userId, req, retryFreshId);
            second.result.Ok? ==> second.result == first.result && second.world == retryWorld
  {
  }

  /** Two initiations with the same user and key answer with the same session. */
  lemma IdempotentInitiate(w: World, userId: Uuid, req: PaymentInitRequest, freshId: Uuid, retryFreshId: Uuid)
    requires Initiate(w, userId, req, freshId).result.Ok?
    ensures var first := Initiate(w, userId, req, freshId);
            var second := Initiate(first.world, userId, req, retryFreshId);
            second.result.Ok? && second.result.value.sessionId == first.result.value.sessionId &&
            second.world == first.world
  {
  }

  /**
   * With the cache missing, an initiation by a user who already owns a row
   * for the idempotency key adds no row and answers with that row's session
   * id and amount: the unique index, not the cache, decides.
   */
  lemma RecoverExistingSession(w: World, userId: Uuid, req: PaymentInitRequest, freshId: Uuid, i: nat)
    requires UniqueKeys(w.transactions)
    requires i < |w.transactions|
    requires w.transactions[i].userId == userId && w.transactions[i].idempotencyKey == req.idempotencyKey
    requires CachedResponse(w.cache, req.idempotencyKey) == Ok(None)
    ensures var o := Initiate(w, userId, req, freshId);
            o.world.transactions == w.transactions &&
            (o.result.Ok? ==> o.result.value.sessionId == w.transactions[i].id &&
                              o.result.value.amount == w.transactions[i].amount)
  {
  }

  /**
   * The initiation response's status is the fixed text "initiated", even
   * when the recovered row has already been settled.
   */
  lemma RecoveredSettledSessionReportsInitiated(w: World, userId: Uuid, req: PaymentInitRequest, freshId: Uuid, i: nat)
    requires UniqueKeys(w.transactions)
    requires i < |w.transactions|
    requires w.transactions[i].userId == userId && w.transactions[i].idempotencyKey == req.idempotencyKey
    requires w.transactions[i].status == Success
    requires CachedResponse(w.cache, req.idempotencyKey) == Ok(None)
    ensures var o := Initiate(w, userId, req, freshId);
            o.result.Ok? ==>
              o.result.value.sessionId == w.transactions[i].id &&
              o.result.value.status == InitiatedText &&
              o.result.value.status != Label(w.transactions[i].status)
  {
  }

  /**
   * A recovered session is answered with the id and amount of the caller's
   * existing row but with the merchant this request's code resolved to, even
   * when that is not the merchant the row was opened for.
   */
  lemma RecoveredSessionReportsRequestedMerchant(w: World, userId: Uuid, req: PaymentInitRequest, freshId: Uuid, i: nat)
    requires UniqueKeys(w.transactions)
    requires i < |w.transactions|
    requires w.transactions[i].userId == userId && w.transactions[i].idempotencyKey == req.idempotencyKey
    requires CachedResponse(w.cache, req.idempotencyKey) == Ok(None)
    ensures var o := Initiate(w, userId, req, freshId);
            var lookup := MerchantService.GetMerchantByQr(w.merchants, w.cache, req.qrData);
            o.result.Ok? ==>
              && lookup.result.Ok?
              && o.result.value.sessionId == w.transactions[i].id
              && o.result.value.amount == w.transactions[i].amount
              && o.result.value.merchant == InfoOf(lookup.result.value)
              && o.world.transactions == w.transactions
  {
  }

  /** After an initiation that missed the cache and succeeded, exactly one row exists for the caller and key. */
  lemma OneRowPerKey(w: World, userId: Uuid, req: PaymentInitRequest, freshId: Uuid)
    requires Valid(w)
    requires CachedResponse(w.cache, req.idempotencyKey) == Ok(None)
    requires Initiate(w, userId, req, freshId).result.Ok?
    ensures var o := Initiate(w, userId, req, freshId);
            exists i :: 0 <= i < |o.world.transactions| &&
              o.world.transactions[i].id == o.result.value.sessionId &&
              KeyedSession(req.idempotencyKey, userId)(o.world.transactions[i]) &&
              forall j :: 0 <= j < |o.world.transactions| && KeyedSession(req.idempotencyKey, userId)(o.world.transactions[j]) ==> j == i
  {
  }

  /**
   * An initiation can fail after its row is inserted (when the response
   * cannot be written to the cache). The row stays, and a retry that misses
   * the cache recovers it: it answers with the session the failed call
   * created.
   */
  lemma {:induction false} RetryAfterLateFailure(
    w: World, userId: Uuid, req: PaymentInitRequest, freshId: Uuid,
    laterCache: Cache.Cache<Codec.Json>, retryFreshId: Uuid)
    requires Valid(w)
    requires Initiate(w, userId, req, freshId).result.Err?
    requires Initiate(w, userId, req, freshId).world.transactions != w.transactions
    requires CachedResponse(laterCache, req.idempotencyKey) == Ok(None)
    ensures var failed := Initiate(w, userId, req, freshId);
            var retry := Initiate(failed.world.(cache := laterCache), userId, req, retryFreshId);
            retry.world.transactions == failed.world.transactions &&
            (retry.result.Ok? ==> retry.result.value.sessionId == freshId)
  {
    var failed := Initiate(w, userId, req, freshId);
    var rows := failed.world.transactions;
    var merchantId :| rows == w.transactions + [NewSession(freshId, userId, merchantId, req)];
    var i := |w.transactions|;
    assert rows[i] == NewSession(freshId, userId, merchantId, req);
    assert Valid(failed.world);
    RecoverExistingSession(failed.world.(cache := laterCache), userId, req, retryFreshId, i);
  }

  /**
   * Because the idempotency cache key ignores the user, a second user who
   * picks the same key after another user's successful initiation is handed
   * the other user's session, gets no session of their own, and cannot
   * execute the session they were handed.
   */
  lemma {:induction false} CrossUserReplay(
    w: World, userId: Uuid, req: PaymentInitRequest, freshId: Uuid,
    otherUser: Uuid, otherReq: PaymentInitRequest, otherFreshId: Uuid,
    pin: string, settlementId: Uuid, verify: PinVerifier)
    requires Valid(w)
    requires userId != otherUser
    requires CachedResponse(w.cache, req.idempotencyKey) == Ok(None)
    requires Initiate(w, userId, req, freshId).result.Ok?
    requires otherReq.idempotencyKey == req.idempotencyKey && otherReq.amount > 0
    ensures var first := Initiate(w, userId, req, freshId);
            var second := Initiate(first.world, otherUser, otherReq, otherFreshId);
            var sessionId := first.result.value.sessionId;
            && second.result == first.result
            && second.world.transactions == first.world.transactions
            && Execute(second.world, otherUser, PaymentExecuteRequest(sessionId, pin), settlementId, verify) ==
                 Outcome(Err(NotFound(NotFoundMessage)), second.world)
  {
    var first := Initiate(w, userId, req, freshId);
    ReplayServesCachedResponse(w, userId, req, freshId, otherUser, otherReq, otherFreshId);
    var rows := first.world.transactions;
    var sessionId := first.result.value.sessionId;
    var t :| t in rows && t.id == sessionId && t.userId == userId && t.idempotencyKey == req.idempotencyKey &&
             t.amount == first.result.value.amount;
    var i :| 0 <= i < |rows| && rows[i] == t;
    assert UniqueKeys(rows);
    forall j | 0 <= j < |rows|
      ensures !OwnedSession(sessionId, otherUser)(rows[j])
    {
      if rows[j].id == sessionId {
        ConflictingRowsCoincide(rows, i, j);
      }
    }
  }

  // ---------------------------------------------------------------------------
  // Execution

  /**
   * Executing a session a second time after it was settled debits nothing
   * and changes nothing: it answers "success" with the reference of the first
   * settlement and the already-processed message.
   */
  lemma ExecuteTwiceDebitsOnce(
    w: World, userId: Uuid, req: PaymentExecuteRequest, freshId: Uuid, verify: PinVerifier,
    secondFreshId: Uuid, secondPin: string)
    requires Execute(w, userId, req, freshId, verify).result.Ok?
    requires Execute(w, userId, req, freshId, verify).result.value.message == PaymentSuccessfulMessage
    ensures var first := Execute(w, userId, req, freshId, verify);
            var second := Execute(first.world, userId, req.(pin := secondPin), secondFreshId, verify);
            && second.world == first.world
            && second.result == Ok(PaymentExecuteResponse(req.sessionId, SuccessText, Some(UpiPrefix + freshId), AlreadyProcessedMessage))
  {
  }

  /** A settlement never leaves the payer below zero: the balance it debits covered the amount. */
  lemma SettlementKeepsBalanceCovered(w: World, userId: Uuid, req: PaymentExecuteRequest, freshId: Uuid, verify: PinVerifier)
    requires Execute(w, userId, req, freshId, verify).result.Ok?
    requires Execute(w, userId, req, freshId, verify).result.value.message == PaymentSuccessfulMessage
    ensures var o := Execute(w, userId, req, freshId, verify);
            userId in w.users && userId in o.world.users &&
            o.world.users[userId].balance >= 0 &&
            o.world.users[userId].balance == w.users[userId].balance - LoadSession(w, userId, req.sessionId).value.amount
  {
  }

  // ---------------------------------------------------------------------------
  // Exactly-once settlement over any sequence of requests

  datatype Call =
    | InitiateCall(userId: Uuid, initReq: PaymentInitRequest, freshId: Uuid)
    | ExecuteCall(userId: Uuid, execReq: PaymentExecuteRequest, freshId: Uuid)

  datatype Reply =
    | InitiateReply(init: Result<PaymentInitResponse, AppError>)
    | ExecuteReply(exec: Result<PaymentExecuteResponse, AppError>)

  /** One request against the world. */
  function Step(w: World, call: Call, verify: PinVerifier): (Reply, World)
  {
    match call
    case InitiateCall(userId, req, freshId) =>
      var o := Initiate(w, userId, req, freshId);
      (InitiateReply(o.result), o.world)
    case ExecuteCall(userId, req, freshId) =>
      var o := Execute(w, userId, req, freshId, verify);
      (ExecuteReply(o.result), o.world)
  }

  /** Requests served one after another, each seeing the world the previous one left. */
  function Run(w: World, calls: seq<Call>, verify: PinVerifier): (r: (seq<Reply>, World))
    ensures |r.0| == |calls|
    decreases |calls|
  {
    if |calls| == 0 then ([], w)
    else
      var (reply, w') := Step(w, calls[0], verify);
      var (replies, final) := Run(w', calls[1..], verify);
      ([reply] + replies, final)
  }

  /** A reply that reports a settlement of session `s`. */
  predicate IsSettlementOf(reply: Reply, s: Uuid)
  {
    reply.ExecuteReply? && reply.exec.Ok? &&
    reply.exec.value.transactionId == s && reply.exec.value.message == PaymentSuccessfulMessage
  }

  function Settlements(replies: seq<Reply>, s: Uuid): nat
  {
    if |replies| == 0 then 0
    else (if IsSettlementOf(replies[0], s) then 1 else 0) + Settlements(replies[1..], s)
  }

  /** Session `s` exists and every row with its id is past execution. */
  ghost predicate Closed(w: World, s: Uuid)
  {
    && (exists i :: 0 <= i < |w.transactions| && w.transactions[i].id == s)
    && (forall i :: 0 <= i < |w.transactions| && w.transactions[i].id == s ==> !IsExecutable(w.transactions[i].status))
  }

  /** A closed session stays closed, and no request settles it again. */
  lemma {:induction false} StepKeepsClosed(w: World, call: Call, verify: PinVerifier, s: Uuid)
    requires Closed(w, s)
    ensures Closed(Step(w, call, verify).1, s)
    ensures !IsSettlementOf(Step(w, call, verify).0, s)
  {
    var rows := w.transactions;
    var i :| 0 <= i < |rows| && rows[i].id == s;
    match call
    case InitiateCall(userId, req, freshId) =>
      var o := Initiate(w, userId, req, freshId);
      if o.world.transactions != rows {
        assert rows[i].id != freshId;
        var merchantId :| o.world.transactions == rows + [NewSession(freshId, userId, merchantId, req)];
        assert o.world.transactions[i] == rows[i];
      }
    case ExecuteCall(userId, req, freshId) =>
      var o := Execute(w, userId, req, freshId, verify);
      if o.result.Ok? && o.result.value.message == PaymentSuccessfulMessage {
        var t := LoadSession(w, userId, req.sessionId).value;
        var rows' := o.world.transactions;
        assert t in rows;
        assert t.id != s;
        assert rows'[i] == rows[i];
      }
  }

  /** A request that settles session `s` leaves it closed. */
  lemma SettlementCloses(w: World, call: Call, verify: PinVerifier, s: Uuid)
    requires IsSettlementOf(Step(w, call, verify).0, s)
    ensures Closed(Step(w, call, verify).1, s)
  {
  }

  /**
   * The at-most-once half of exactly-once debit: over any sequence of
   * initiations and executions, by any users, session `s` is settled at most
   * once, and not at all if it was already closed.
   */
  lemma {:induction false} SettlesAtMostOnce(w: World, calls: seq<Call>, verify: PinVerifier, s: Uuid)
    ensures Settlements(Run(w, calls, verify).0, s) <= if Closed(w, s) then 0 else 1
    decreases |calls|
  {
    if |calls| > 0 {
      var (reply, w') := Step(w, calls[0], verify);
      var replies := Run(w, calls, verify).0;
      assert replies[1..] == Run(w', calls[1..], verify).0;
      assert replies[0] == reply;
      SettlesAtMostOnce(w', calls[1..], verify, s);
      if Closed(w, s) {
        StepKeepsClosed(w, calls[0], verify, s);
      } else if IsSettlementOf(reply, s) {
        SettlementCloses(w, calls[0], verify, s);
      }
    }
  }

  /**
   * Exactly-once debit: when the first request executes an open session of
   * its caller with the right pin and a covering balance, that request
   * settles it, debiting the session's amount, and no later request in any
   * sequence settles it again.
   */
  lemma SettlesExactlyOnce(w: World, calls: seq<Call>, verify: PinVerifier)
    requires |calls| > 0 && calls[0].ExecuteCall?
    requires Settleable(w, calls[0].userId, calls[0].execReq, verify)
    ensures var c := calls[0];
            var t := LoadSession(w, c.userId, c.execReq.sessionId).value;
            && Settlements(Run(w, calls, verify).0, t.id) == 1
            && Step(w, c, verify).1.users[c.userId].balance == w.users[c.userId].balance - t.amount
  {
    var c := calls[0];
    var t := LoadSession(w, c.userId, c.execReq.sessionId).value;
    var (reply, w') := Step(w, c, verify);
    assert IsSettlementOf(reply, t.id);
    SettlementCloses(w, c, verify, t.id);
    SettlesAtMostOnce(w', calls[1..], verify, t.id);
    var replies := Run(w, calls, verify).0;
    assert replies[0] == reply && replies[1..] == Run(w', calls[1..], verify).0;
    assert Settlements(replies, t.id) == 1 + Settlements(replies[1..], t.id);
  }
}

=== FILE: store.dfy ===
/**
 * Row lookup in a relational table, as `fetch_one` performs it: the first
 * row of the result in table order, or `RowNotFound` when nothing matches.
 */
module Store {

  import opened Wrappers
  import opened Errors

  /** The position of the first row satisfying `p`, if any. */
  function FirstIndex<T>(rows: seq<T>, p: T -> bool): (r: Option<nat>)
    ensures r.Some? ==> r.value < |rows| && p(rows[r.value])
    ensures r.Some? ==> forall j :: 0 <= j < r.value ==> !p(rows[j])
    ensures r.None? <==> forall j :: 0 <= j < |rows| ==> !p(rows[j])
    decreases |rows|
  {
    if |rows| == 0 then None
    else if p(rows[0]) then Some(0)
    else
      match FirstIndex(rows[1..], p)
      case None => None
      case Some(k) => Some(k + 1)
  }

  /** `fetch_one` of a query whose WHERE clause is `p`. */
  function FetchOne<T>(rows: seq<T>, p: T -> bool): (r: Result<T, SqlxError>)
    ensures r.Ok? ==> r.value in rows && p(r.value)
    ensures r.Err? <==> forall j :: 0 <= j < |rows| ==> !p(rows[j])
    ensures r.Err? ==> r.error == RowNotFound
  {
    match FirstIndex(rows, p)
    case None => Err(RowNotFound)
    case Some(i) => Ok(rows[i])
  }

  /** When exactly one row matches, `fetch_one` returns that row. */
  lemma FetchOneUnique<T>(rows: seq<T>, p: T -> bool, i: nat)
    requires i < |rows| && p(rows[i])
    requires forall j :: 0 <= j < |rows| && p(rows[j]) ==> j == i
    ensures FetchOne(rows, p) == Ok(rows[i])
  {
  }
}

=== FILE: wrappers.dfy ===
/** Optional values and fallible results, shared by every module of the model. */
module Wrappers {

  datatype Option<T> = None | Some(value: T)

  /** The outcome of an operation that may fail with an error of type `E`. */
  datatype Result<T, E> = Ok(value: T) | Err(error: E)
}
